=== FILE: README.md ===
# heroicons-view-components in Dafny

A model of the two mechanisms at the heart of the `Heroicons::ViewComponent` gem, with proofs of
what they promise:

- **The attribute merge of `Icon`** (`merge_html_attributes` with `normalize_class` and
  `escape_html`). It finds the first `<svg …>` opening tag of an icon file and rebuilds it with
  the caller's HTML options. If a class option is given, the existing `class="…"` content is
  combined with the caller's classes. Every other option is appended as `name="escaped value"`.
- **The memoising `IconCache`** (`get`, `clear`, `cache_size`, `cache_key` and the cleanup done
  after a file is read). The cache is a `map<String, String>` passed into `Get`, which returns
  the new map beside its result. The file system is a function parameter (`Reader`).

Also modelled:

- the `svg_content` façade that joins the two mechanisms;
- the constructor's checks `validate_variant!` and `validate_size!`;
- the constants `VARIANTS` and `SIZES`.

Modules, one per concern:

| module | file | models |
|---|---|---|
| `Wrappers` | wrappers.dfy | `Option` and `Result` |
| `Text` | text.dfy | the Ruby `String`/`Array` operations used: `strip`, `join`, `reject(&:empty?)`, `tr`, one-character `gsub` |
| `Patterns` | patterns.dfy | the three regular expressions, written as scanners: `/<svg([^>]*)>/`, `/class=["']([^"']*)["']/` and `/<\?xml[^>]*\?>/`, with first match, `gsub(…, "")` and the splice done by `sub` |
| `Attributes` | attributes.dfy | `merge_html_attributes`, `normalize_class`, `escape_html` |
| `Scenarios` | scenarios.dfy | the merge worked out for an icon tag without a class attribute, given a class list and an id |
| `IconCache` | icon_cache.dfy | `IconCache` |
| `Icon` | icon.dfy | the constants, the constructor's checks and `svg_content` |

The merge follows the code, not a parsed attribute map:

- The existing attribute text is kept as text.
- With a class option, only `class="…"` occurrences are taken out of it.
- An existing attribute that a caller's option repeats is therefore not replaced: both appear in
  the rebuilt tag.
- Without a class option the captured text is kept as it is. When it starts with a space, as in
  every shipped icon file (`<svg xmlns=…>`), the rebuilt tag starts `<svg  ` with two spaces.

## Model

| member | source | states |
|---|---|---|
| Text.Strip | lib/heroicons/view_component/icon.rb:57 | `strip` leaves no Ruby whitespace (NUL, tab, LF, VT, FF, CR, space) at either end and never lengthens the text. The text is unchanged exactly when it was already trimmed, and empty exactly when it was all whitespace. Every character of the result comes from the input. |
| Text.StripLeadingSpace | lib/heroicons/view_component/icon.rb:61 | On a single space in front of already trimmed text, `strip` removes exactly that space. |
| Text.StripIsMiddle | lib/heroicons/view_component/icon.rb:57 | `strip` removes whitespace only, and only at the two ends: the result is a middle slice of the text with only whitespace before and after it. Together with `Strip`'s trimmed result this fixes the value. |
| Text.SubstringIsSlice | lib/heroicons/view_component/icon.rb:51 | The captured group, read one character at a time, is exactly the text between `<svg` and the closing `>`. |
| Text.NonEmpty | lib/heroicons/view_component/icon.rb:84 | `reject(&:empty?)` keeps exactly the non-empty parts, and none of the kept parts is empty. It changes nothing when no part is empty. |
| Text.NonEmptyAppend | lib/heroicons/view_component/icon.rb:84 | `reject(&:empty?)` of a concatenation is the concatenation of the two rejections, so the kept parts keep their order and their repetitions. |
| Text.NonEmptySingle | lib/heroicons/view_component/icon.rb:84 | A single part is kept exactly when it is not empty. |
| Text.SplitJoin | lib/heroicons/view_component/icon.rb:93 | Joining words with a one-character separator and splitting at that character gives the words back, provided no word contains the separator. |
| Text.ReplaceChar | lib/heroicons/view_component/icon.rb:102 | A one-character `gsub` removes every occurrence of that character when the replacement lacks it. It changes nothing when the character is absent, keeps every other character, and adds only characters of the replacement. |
| Text.ReplaceCharSingle | lib/heroicons/view_component/icon.rb:102 | On a single character, the one-character `gsub` gives the replacement when the character is the pattern and the character itself otherwise. With `ReplaceCharAppend` this fixes the result on every text: each occurrence becomes the replacement and every other character is copied in place. |
| Text.ReplaceCharAppend | lib/heroicons/view_component/icon.rb:102 | A one-character `gsub` of a concatenation is the concatenation of the two replaced parts. |
| Patterns.MatchAt | lib/heroicons/view_component/icon.rb:48 | The scanner for each pattern agrees with the pattern's declarative reading. What it reports is a match, and any match at that position is the one it reports. |
| Patterns.FirstMatch | lib/heroicons/view_component/icon.rb:48-49 | `String#match` returns the leftmost match: a real match at least as long as the shortest text the pattern allows, with no match starting earlier. It returns nothing exactly when the pattern occurs nowhere. |
| Patterns.RemoveAll | lib/heroicons/view_component/icon.rb:61 | `gsub(pattern, "")` leaves the text unchanged exactly when the pattern occurs nowhere, and makes it strictly shorter otherwise. |
| Patterns.FirstMatchIs | lib/heroicons/view_component/icon.rb:48 | A match with no match starting before it is the match `String#match` returns. |
| Patterns.RemoveAllFromKeeps | lib/heroicons/view_component/icon_cache.rb:48 | Where no match starts, `gsub(pattern, "")` copies the text unchanged. |
| Patterns.RemoveDeclaration | lib/heroicons/view_component/icon_cache.rb:48 | For a text with one `<?xml…?>` declaration and no other, `gsub(/<\?xml[^>]*\?>/, "")` cuts out exactly that declaration and keeps the text before and after it. |
| Patterns.RemoveClassAttr | lib/heroicons/view_component/icon.rb:61 | For a text with one `class="…"` (either quote kind) and no other, `gsub(/class=["'][^"']*["']/, "")` cuts out exactly that attribute and keeps the text before and after it. |
| Patterns.FirstClassAttr | lib/heroicons/view_component/icon.rb:56 | A `class=` followed by a quote, a quote-free value and a quote (either quote kind) is the class attribute `match` finds, when no class attribute starts before it. |
| Patterns.ReplaceSpanParts | lib/heroicons/view_component/icon.rb:87 | `sub` keeps everything before the replaced tag and everything after it. Exactly the new tag lies between them. |
| Patterns.SvgTagAtStart | lib/heroicons/view_component/icon.rb:48 | In a file that begins with `<svg…>`, where the attribute text has no `>`, the tag found spans exactly that opening tag. |
| Attributes.Lookup | lib/heroicons/view_component/icon.rb:55 | `html_options[key]` is absent exactly when no option has that key. A value found is paired with that key among the options. |
| Attributes.NormalizeClass | lib/heroicons/view_component/icon.rb:90-99 | A String class is returned unchanged, and an empty Array gives `""`. |
| Attributes.NormalizeClassWords | lib/heroicons/view_component/icon.rb:90-99 | An Array of classes is joined with single spaces. Splitting the result at spaces gives the Array back when no class contains a space. |
| Attributes.EscapeHtml | lib/heroicons/view_component/icon.rb:101-103 | The escaped value contains neither `"` nor `'`. It equals the input exactly when the input contains neither. |
| Attributes.EscapeHtmlCharwise | lib/heroicons/view_component/icon.rb:102 | The two whole-string `gsub` passes act as one character-by-character replacement: `"` becomes `&quot;`, `'` becomes `&#39;`, and every other character stays. |
| Attributes.UnescapeEscape | lib/heroicons/view_component/icon.rb:101-103 | On text without `&`, decoding the two entities recovers the original value, so escaping loses nothing. |
| Attributes.EscapeNotInjective | lib/heroicons/view_component/icon.rb:102 | `&` itself is not escaped, so a `"` and a literal `&quot;` escape to the same text. |
| Attributes.Hyphenate | lib/heroicons/view_component/icon.rb:70 | `tr("_", "-")` keeps the length, turns each `_` into `-` at its position and leaves no `_`. Every other character stays in place, and a name without `_` is unchanged. |
| Attributes.HyphenateIsClass | lib/heroicons/view_component/icon.rb:69-70 | Only an option named exactly `class` becomes an attribute named `class`. |
| Attributes.NestedAttrs | lib/heroicons/view_component/icon.rb:72-77 | A nested Hash yields one `parent-child="escaped value"` attribute per entry, in Hash order, with `_` turned into `-` in the child's name. |
| Attributes.OtherAttrs | lib/heroicons/view_component/icon.rb:69-81 | No attribute from the general loop is named `class` or has `_` in its name. No attribute value contains a quote. |
| Attributes.OtherAttrsSingle | lib/heroicons/view_component/icon.rb:69-81 | A single option contributes exactly its own rendering, once: nothing for `class`, `name="escaped"` for a String, `name=""` for nil, and one `name-child="escaped"` per entry for a nested Hash. |
| Attributes.OptionAttrsNames | lib/heroicons/view_component/icon.rb:71-79 | The attributes of a non-class option are never named `class` and hold no `_`, also for nested Hash entries. |
| Attributes.OtherAttrsAppend | lib/heroicons/view_component/icon.rb:69 | Options contribute their attributes in the order the options are given. |
| Attributes.OptionRendered | lib/heroicons/view_component/icon.rb:69-81 | Every non-class option shows up among the new attributes. A String becomes `name="escaped"`, nil becomes `name=""`, and a Hash becomes one `name-child="escaped"` per entry. |
| Attributes.ClassValue | lib/heroicons/view_component/icon.rb:56-57 | `class_match[1]` is `""` when the tag has no class attribute. |
| Attributes.ClassValueUnquoted | lib/heroicons/view_component/icon.rb:56-57 | `class_match[1]` never holds a quote, because the captured value stops at the first quote. |
| Attributes.ExistingClasses | lib/heroicons/view_component/icon.rb:56-57 | The existing class content is trimmed and holds no quote. It is `""` when the tag has no class attribute. |
| Attributes.ExistingClassesOf | lib/heroicons/view_component/icon.rb:56-57 | In a tag whose first class attribute is `class="c"` (either quote kind), `class_match[1]` is exactly `c`, whatever text comes before or after it, and `existing_classes` is `c` stripped. |
| Attributes.ClassJoinsExisting | lib/heroicons/view_component/icon.rb:55-66 | With a String class option on such a tag, the only new attribute is one `class` attribute. It holds the tag's own classes, then one space, then the caller's. Either part is dropped when it is empty, and the attribute is dropped when both are. |
| Attributes.CombineClasses | lib/heroicons/view_component/icon.rb:64 | The existing classes come first, then the caller's, with one space between them. Empty parts are dropped, nothing is deduplicated, and the result is `""` only when both parts are empty. |
| Attributes.ClassKeepsRest | lib/heroicons/view_component/icon.rb:61 | With a class option, on a tag with exactly one class attribute, the kept attribute text is the text before that attribute followed by the text after it, stripped. |
| Attributes.MergeClass | lib/heroicons/view_component/icon.rb:55-66 | The kept attribute text is trimmed and no longer than before, and is just the stripped text when there was no class attribute. At most one class attribute is emitted. It is omitted exactly when both class parts are empty, and otherwise carries the combined classes. |
| Attributes.NewAttrs | lib/heroicons/view_component/icon.rb:54-81 | Without a class option the existing text is kept as it is, followed by the other options' attributes. With a class option the class branch's result comes first, then the other attributes, and only the first new attribute can be named `class`. |
| Attributes.TagAttributesLayout | lib/heroicons/view_component/icon.rb:84 | `all_attrs` is the kept text, if any, then every new attribute rendered, each separated by one space. |
| Attributes.KeepsExistingWithoutClass | lib/heroicons/view_component/icon.rb:55-84 | Without a class option (absent or nil) the captured text is kept verbatim at the front. That includes any `class="…"` and any attribute the caller's options repeat, so such an attribute appears twice. |
| Attributes.ClassAttributeFirst | lib/heroicons/view_component/icon.rb:55-66 | With a class option, the kept text has every `class="…"` removed and is stripped. The class attribute comes first among the new attributes when the combined value is non-empty, and is absent when it is empty. |
| Attributes.DoubleSpaceWithoutClass | lib/heroicons/view_component/icon.rb:84-85 | Without a class option, a captured text that starts with a space gives a rebuilt tag that starts with `<svg` and two spaces. |
| Attributes.MergeAttributes | lib/heroicons/view_component/icon.rb:43-88 | The SVG is returned unchanged when there are no options or no opening tag. Otherwise the span of the first `<svg…>` is replaced by `<svg all_attrs>`, built from the text that tag captured. |
| Scenarios.PlainTagNewAttrs | lib/heroicons/view_component/icon.rb:55-81 | For a tag with no class attribute, given a class list and an id, the new attributes are the joined class list followed by the id. The kept text is the tag's text without its leading space. |
| Scenarios.PlainTagAttributes | lib/heroicons/view_component/icon.rb:55-85 | For a tag with no class attribute, given a class list and an id, `all_attrs` is the existing text (when there is any), then `class="a b …"`, then `id="…"`. |
| IconCache.ParseCacheKey | lib/heroicons/view_component/icon_cache.rb:38-40 | A key built from a size and a variant that contain no `/` reads back as the size text, variant and name it came from. |
| IconCache.CacheKeyInjective | lib/heroicons/view_component/icon_cache.rb:38-40 | For sizes and variants without `/`, two keys are equal exactly when the size texts, variants and names are. |
| IconCache.CacheKeyCollision | lib/heroicons/view_component/icon_cache.rb:38-40 | A `/` inside the size lets two different triples share one cache entry. |
| IconCache.CleanContent | lib/heroicons/view_component/icon_cache.rb:48 | The cleaned text is trimmed and no longer than the file. It equals the file exactly when the file has no XML declaration and no surrounding whitespace, and it is just the stripped file when there is no declaration. |
| IconCache.CleanContentDeclaration | lib/heroicons/view_component/icon_cache.rb:48 | A file holding one XML declaration loses exactly that declaration. The text before and after it is joined and stripped. |
| IconCache.CleanContentLeadingDeclaration | lib/heroicons/view_component/icon_cache.rb:48 | A file that starts with its XML declaration is cleaned to the stripped text after the declaration. |
| IconCache.LoadFromFile | lib/heroicons/view_component/icon_cache.rb:42-49 | `load_from_file` returns nil exactly when the file is missing, and otherwise trimmed text no longer than the file. |
| IconCache.Get | lib/heroicons/view_component/icon_cache.rb:10-26 | A hit returns the stored text and leaves the cache unchanged. A miss returns the loaded content and stores it, even when it is `""`. A missing file stores nothing. No other entry changes. |
| IconCache.Clear | lib/heroicons/view_component/icon_cache.rb:28-30 | After `clear`, `cache_size` is 0. |
| IconCache.HitIgnoresReader | lib/heroicons/view_component/icon_cache.rb:14-15 | A hit does not depend on the file system. |
| IconCache.GetTwice | lib/heroicons/view_component/icon_cache.rb:10-26 | Two `get`s of the same key with no `clear` between them return the same answer. The second leaves the cache as the first left it. |
| IconCache.GetGrowsByAtMostOne | lib/heroicons/view_component/icon_cache.rb:18-25 | A `get` never shrinks the cache and adds at most one entry. |
| IconCache.SeparateEntries | lib/heroicons/view_component/icon_cache.rb:10-40 | After `clear`, two `get`s that differ in size, variant or name leave two entries, provided sizes and variants contain no `/` and both files exist. |
| Icon.ValidateVariant | lib/heroicons/view_component/icon.rb:105-109 | A variant is accepted exactly when it is in `VARIANTS`. Otherwise the error reads `Invalid variant: X. Must be one of: outline, solid`. |
| Icon.ValidateSize | lib/heroicons/view_component/icon.rb:111-115 | A size is accepted exactly when it is nil or in `SIZES`. Otherwise the error reads `Invalid size: X. Must be one of: 16, 20, 24`. |
| Icon.NewIcon | lib/heroicons/view_component/icon.rb:12-21 | Construction succeeds exactly when both checks pass. The variant is checked first, so a bad variant is reported even when the size is bad too. |
| Icon.DefaultsValid | lib/heroicons/view_component/icon.rb:12 | The defaults `variant: "outline"` and `size: "24"` pass validation. |
| Icon.ValidHasNoSlash | lib/heroicons/view_component/icon.rb:9-10 | No accepted size or variant contains `/`. |
| Icon.SvgContent | lib/heroicons/view_component/icon.rb:31-41 | A missing or empty icon file renders as `""`; any other file renders as its merge with the options. The cache changes exactly as `IconCache.get` changes it. |
| Icon.SvgContentWithoutOptions | lib/heroicons/view_component/icon.rb:33-45 | Without options the cached SVG is returned as it is. |
| Icon.MissingIconIsEmpty | test/heroicons/view_component/icon_test.rb:107-112 | A missing icon renders as `""` and leaves the cache unchanged. |
| Icon.SvgContentTwice | test/heroicons/view_component/icon_test.rb:240-249 | Rendering the same icon twice gives the same markup. The cache after the second rendering equals the cache after the first. |
| Icon.ValidIconsCachedSeparately | test/heroicons/view_component/icon_test.rb:251-269 | After `clear`, two valid icons that differ in size, variant or name occupy two cache entries, provided both files exist. |

## Left out

- The `Mutex` and the double-checked lookup in `get`. `Get` is one atomic sequential step, so the
  model does not cover concurrent loads racing with `clear`.
- `File.exist?`, `File.read` and `svg_path`. They are replaced by the `Reader` parameter, so the
  directory layout under `vendor/heroicons` is not modelled.
- `call` and `html_safe`, the `ViewComponent::Base` superclass, and the per-instance
  `@svg_content ||=` memo. These are rendering-host concerns. `SvgContentTwice` shows that
  recomputing gives the same markup.
- `to_s` on names, variants and sizes: they are taken as strings already. Option keys are
  strings; `html_options[:class]` is the option named `class`.
- Option shapes that go through Ruby's `to_s` of an Array or a Hash are excluded by
  `Supported`:
  - an Array for an option other than `class`;
  - a Hash for `class`;
  - other objects.
- Backslash sequences in the replacement text of `String#sub`. The model inserts the new tag
  literally. That matches the source whenever the rebuilt tag contains no backslash, counting
  both the file's own attribute text and the option values.
- Text is a sequence of Unicode characters. In Ruby, a file or option value that is not valid
  UTF-8 makes the regular-expression calls (`match`, `gsub`) raise `ArgumentError`. The model has
  no such error path.
- Only the three regular expressions the source uses are modelled, each as a scanner. There is
  no general regular-expression engine.
- `lib/heroicons/view_component.rb` and `test/test_helper.rb` are not part of this model. The
  `clear` before each test is `Clear` in the lemmas that start from an empty cache.
- Patterns.RemoveAll: the contract says when the text changes and that it shrinks, not which
  characters remain. The left-to-right deletion itself is in the definition (`RemoveAllFrom`), and
  deleting a match can expose a new `class="…"` that the single scan does not revisit.
- IconCache.LoadFromFile: the contract states presence and the shape of the cleaned text. The
  exact text is `CleanContent` of the file. `CleanContent`'s own contract and
  `CleanContentDeclaration` pin that text down for a file with no declaration or with one
  declaration. A file with several declarations is covered only by the general contract.
- Attributes.MergeAttributes: the contract names the replaced span and the new tag. That the
  text around the tag is kept is stated separately by `Patterns.ReplaceSpanParts` for any span
  and replacement.

=== FILE: attributes.dfy ===
/** `Icon#merge_html_attributes` and its helpers (`normalize_class`, `escape_html`).

    The merge is textual: it finds the first `<svg …>` opening tag, keeps the attribute text
    already there (taking out every `class="…"` when a class option is given), and appends the
    caller's attributes after it. An existing attribute with the same name as a caller's option is
    therefore not replaced; both end up in the tag. */
module Attributes {
  import opened Wrappers
  import opened Text
  import opened Patterns

  /** A value of the caller's option hash. */
  datatype OptValue =
    | Str(text: String)                      // a String
    | Words(words: seq<String>)              // an Array of Strings
    | Group(entries: seq<(String, String)>)  // a nested Hash, as in `data: { controller: "icon" }`
    | Nil                                    // nil

  /** The caller's options, in the order the Hash holds them. */
  type Options = seq<(String, OptValue)>

  /** One attribute written into the tag as `name="value"`. */
  datatype Attr = Attr(name: String, value: String)

  function Render(a: Attr): String {
    a.name + "=\"" + a.value + "\""
  }

  function RenderAll(attrs: seq<Attr>): seq<String> {
    seq(|attrs|, k requires 0 <= k < |attrs| => Render(attrs[k]))
  }

  /** The option shapes this model covers: the class option is a String, an Array or nil, and
      every other option is a String, a nested Hash or nil. The remaining shapes go through
      Ruby's `to_s` of a Hash or an Array, which is not modelled. */
  predicate Supported(opts: Options) {
    forall k :: 0 <= k < |opts| ==>
      if opts[k].0 == "class" then !opts[k].1.Group? else !opts[k].1.Words?
  }

  /** `html_options[key]`: the value stored under `key`, `None` when the key is absent. */
  function Lookup(opts: Options, key: String): (r: Option<OptValue>)
    ensures r.None? <==> forall k :: 0 <= k < |opts| ==> opts[k].0 != key
    ensures r.Some? ==> (key, r.value) in opts
  {
    if |opts| == 0 then None
    else if opts[0].0 == key then Some(opts[0].1)
    else Lookup(opts[1..], key)
  }

  /** The class option when `if html_options[:class]` takes its branch: present and not nil. */
  function CallerClass(opts: Options): Option<OptValue> {
    match Lookup(opts, "class")
    case Some(v) => if v.Nil? then None else Some(v)
    case None => None
  }

  /** `normalize_class`: an Array of classes is joined with single spaces, a String is kept. */
  function NormalizeClass(v: OptValue): (r: String)
    requires !v.Group?
    ensures v.Str? ==> r == v.text
    ensures v.Words? && v.words == [] ==> r == []
  {
    match v
    case Str(t) => t
    case Words(ws) => Join(ws, " ")
    case Nil => []  // nil.to_s
  }

  /** A list of classes is joined with single spaces: splitting the result at spaces gives the
      list back whenever no class name contains a space. */
  lemma NormalizeClassWords(ws: seq<String>)
    requires |ws| > 0 && forall k :: 0 <= k < |ws| ==> ' ' !in ws[k]
    ensures Split(NormalizeClass(Words(ws)), ' ') == ws
  {
    SplitJoin(ws, ' ');
  }

  /** `escape_html`: `"` becomes `&quot;`, then `'` becomes `&#39;`. */
  function EscapeHtml(s: String): (r: String)
    ensures '"' !in r && '\'' !in r
    ensures r == s <==> '"' !in s && '\'' !in s
  {
    ReplaceChar(ReplaceChar(s, '"', "&quot;"), '\'', "&#39;")
  }

  /** Reference reading of `escape_html`, one character at a time. */
  function EscapeChar(c: char): String {
    if c == '"' then "&quot;" else if c == '\'' then "&#39;" else [c]
  }

  function EscapeEach(s: String): String {
    if |s| == 0 then [] else EscapeChar(s[0]) + EscapeEach(s[1..])
  }

  /** The two whole-string replacements act as one character-by-character replacement: the
      second pass never touches text that the first pass produced. */
  lemma {:induction false} EscapeHtmlCharwise(s: String)
    ensures EscapeHtml(s) == EscapeEach(s)
    decreases |s|
  {
    if |s| > 0 {
      var head := if s[0] == '"' then "&quot;" else [s[0]];
      var tail := ReplaceChar(s[1..], '"', "&quot;");
      assert ReplaceChar(s, '"', "&quot;") == head + tail;
      ReplaceCharAppend(head, tail, '\'', "&#39;");
      if s[0] == '\'' {
        assert ReplaceChar(head, '\'', "&#39;") == "&#39;";
      } else {
        assert ReplaceChar(head, '\'', "&#39;") == head;
      }
      EscapeHtmlCharwise(s[1..]);
    }
  }

  /** Decoding of the two entities `escape_html` produces. */
  function UnescapeHtml(s: String): String
    decreases |s|
  {
    if |s| == 0 then []
    else if HasAt(s, 0, "&quot;") then "\"" + UnescapeHtml(s[6..])
    else if HasAt(s, 0, "&#39;") then "'" + UnescapeHtml(s[5..])
    else [s[0]] + UnescapeHtml(s[1..])
  }

  /** Decoding undoes the escape of one leading character other than `&`. */
  lemma UnescapeStep(c: char, rest: String)
    requires c != '&'
    ensures UnescapeHtml(EscapeChar(c) + rest) == [c] + UnescapeHtml(rest)
  {
    if c == '"' {
      UnescapeQuot(rest);
    } else if c == '\'' {
      UnescapeApos(rest);
    } else {
      var e := [c] + rest;
      assert e[0] == c && e[1..] == rest;
    }
  }

  lemma UnescapeQuot(rest: String)
    ensures UnescapeHtml("&quot;" + rest) == "\"" + UnescapeHtml(rest)
  {
    var e := "&quot;" + rest;
    assert e[..6] == "&quot;";
    assert e[6..] == rest;
  }

  lemma UnescapeApos(rest: String)
    ensures UnescapeHtml("&#39;" + rest) == "'" + UnescapeHtml(rest)
  {
    var e := "&#39;" + rest;
    assert e[1] == '#';
    assert e[..5] == "&#39;";
    assert e[5..] == rest;
  }

  lemma {:induction false} UnescapeEscapeEach(s: String)
    requires '&' !in s
    ensures UnescapeHtml(EscapeEach(s)) == s
    decreases |s|
  {
    if |s| > 0 {
      assert s[0] in s;
      assert '&' !in s[1..] by {
        assert forall x :: x in s[1..] ==> x in s;
      }
      UnescapeStep(s[0], EscapeEach(s[1..]));
      UnescapeEscapeEach(s[1..]);
      assert s == [s[0]] + s[1..];
    }
  }

  /** Escaping loses nothing on text without `&`: decoding the entities gives the text back. */
  lemma UnescapeEscape(s: String)
    requires '&' !in s
    ensures UnescapeHtml(EscapeHtml(s)) == s
  {
    EscapeHtmlCharwise(s);
    UnescapeEscapeEach(s);
  }

  /** `&` is not escaped, so a literal `&quot;` and a double quote escape to the same text. */
  lemma EscapeNotInjective()
    ensures EscapeHtml("\"") == EscapeHtml("&quot;")
    ensures "\"" != "&quot;"
  {
    EscapeHtmlCharwise("\"");
    EscapeHtmlCharwise("&quot;");
  }

  /** `key.to_s.tr("_", "-")`. */
  function Hyphenate(name: String): (r: String)
    ensures |r| == |name| && '_' !in r
    ensures forall k :: 0 <= k < |name| && name[k] == '_' ==> r[k] == '-'
    ensures forall k :: 0 <= k < |name| && name[k] != '_' ==> r[k] == name[k]
    ensures '_' !in name ==> r == name
  {
    Tr(name, '_', '-')
  }

  /** Only the option literally named `class` is written as an attribute named `class`. */
  lemma HyphenateIsClass(name: String)
    ensures Hyphenate(name) == "class" <==> name == "class"
  {
    if Hyphenate(name) == "class" {
      assert |name| == 5;
      forall k | 0 <= k < 5
        ensures name[k] == "class"[k]
      {
        assert Hyphenate(name)[k] == "class"[k];
      }
    }
  }

  /** A nested Hash `parent: { child: value, … }`: one `parent-child` attribute per entry. */
  function NestedAttrs(parent: String, entries: seq<(String, String)>): (r: seq<Attr>)
    ensures |r| == |entries|
    ensures forall k :: 0 <= k < |entries| ==>
      r[k] == Attr(parent + "-" + Hyphenate(entries[k].0), EscapeHtml(entries[k].1))
  {
    if |entries| == 0 then []
    else [Attr(parent + "-" + Hyphenate(entries[0].0), EscapeHtml(entries[0].1))]
         + NestedAttrs(parent, entries[1..])
  }

  /** The attributes one non-class option contributes. */
  function OptionAttrs(key: String, v: OptValue): seq<Attr>
    requires !v.Words?
  {
    if v.Group? then NestedAttrs(Hyphenate(key), v.entries)
    else [Attr(Hyphenate(key), EscapeHtml(if v.Str? then v.text else []))]
  }

  /** A non-class option's attributes are never named `class` and hold no `_`. */
  lemma OptionAttrsNames(key: String, v: OptValue)
    requires key != "class" && !v.Words?
    ensures forall k :: 0 <= k < |OptionAttrs(key, v)| ==>
      OptionAttrs(key, v)[k].name != "class" && '_' !in OptionAttrs(key, v)[k].name
  {
    var here := OptionAttrs(key, v);
    HyphenateIsClass(key);
    if v.Group? {
      forall k | 0 <= k < |here|
        ensures here[k].name != "class" && '_' !in here[k].name
      {
        var p := Hyphenate(key);
        var n := p + "-" + Hyphenate(v.entries[k].0);
        assert here[k].name == n;
        assert n[|p|] == '-';
        assert forall x :: x in n ==> x in p || x == '-' || x in Hyphenate(v.entries[k].0);
      }
    }
  }

  /** `html_options.except(:class).each …`: the attributes of every option but `class`. */
  function OtherAttrs(opts: Options): (r: seq<Attr>)
    requires Supported(opts)
    ensures forall k :: 0 <= k < |r| ==>
      r[k].name != "class" && '_' !in r[k].name && '"' !in r[k].value && '\'' !in r[k].value
  {
    if |opts| == 0 then []
    else
      var here := if opts[0].0 == "class" then [] else OptionAttrs(opts[0].0, opts[0].1);
      assert forall k :: 0 <= k < |here| ==> here[k].name != "class" && '_' !in here[k].name by {
        if opts[0].0 != "class" {
          OptionAttrsNames(opts[0].0, opts[0].1);
        }
      }
      here + OtherAttrs(opts[1..])
  }

  /** Options contribute their attributes in the order the options are given. */
  lemma {:induction false} OtherAttrsAppend(a: Options, b: Options)
    requires Supported(a) && Supported(b)
    ensures Supported(a + b)
    ensures OtherAttrs(a + b) == OtherAttrs(a) + OtherAttrs(b)
    decreases |a|
  {
    if |a| == 0 {
      assert a + b == b;
    } else {
      assert (a + b)[0] == a[0] && (a + b)[1..] == a[1..] + b;
      OtherAttrsAppend(a[1..], b);
    }
  }

  /** What one option contributes, exactly once: nothing for `class`, `name="escaped"` for a
      String, `name=""` for nil, one `name-child="escaped"` per entry for a nested Hash.
      With `OtherAttrsAppend` this fixes the whole list. */
  lemma OtherAttrsSingle(key: String, v: OptValue)
    requires Supported([(key, v)])
    ensures key == "class" ==> OtherAttrs([(key, v)]) == []
    ensures key != "class" && v.Str? ==> OtherAttrs([(key, v)]) == [Attr(Hyphenate(key), EscapeHtml(v.text))]
    ensures key != "class" && v.Nil? ==> OtherAttrs([(key, v)]) == [Attr(Hyphenate(key), [])]
    ensures key != "class" && v.Group? ==> OtherAttrs([(key, v)]) == NestedAttrs(Hyphenate(key), v.entries)
  {
    assert [(key, v)][0] == (key, v);
    assert [(key, v)][1..] == [];
  }

  /** Every non-class option shows up among the new attributes: a String as `name="escaped"`,
      nil as `name=""`, a nested Hash as one `name-child="escaped"` per entry. */
  lemma OptionRendered(opts: Options, i: nat)
    requires Supported(opts)
    requires i < |opts| && opts[i].0 != "class"
    ensures opts[i].1.Str? ==> Attr(Hyphenate(opts[i].0), EscapeHtml(opts[i].1.text)) in OtherAttrs(opts)
    ensures opts[i].1.Nil? ==> Attr(Hyphenate(opts[i].0), []) in OtherAttrs(opts)
    ensures opts[i].1.Group? ==> forall j :: 0 <= j < |opts[i].1.entries| ==>
      Attr(Hyphenate(opts[i].0) + "-" + Hyphenate(opts[i].1.entries[j].0), EscapeHtml(opts[i].1.entries[j].1))
        in OtherAttrs(opts)
  {
    assert opts == opts[..i] + ([opts[i]] + opts[i + 1..]);
    OtherAttrsAppend(opts[..i], [opts[i]] + opts[i + 1..]);
    OtherAttrsAppend([opts[i]], opts[i + 1..]);
    assert OtherAttrs([opts[i]]) == OptionAttrs(opts[i].0, opts[i].1) + OtherAttrs([]);
    var mine := OptionAttrs(opts[i].0, opts[i].1);
    assert forall x :: x in mine ==> x in OtherAttrs(opts);
  }

  /** The captured value of the first `class="…"` of the existing attributes, or "". */
  function ClassValue(existing: String): (r: String)
    ensures FirstMatch(ClassAttr, existing).None? ==> r == []
  {
    match FirstMatch(ClassAttr, existing)
    case Some(m) => existing[m.start + 7 .. m.end - 1]
    case None => []
  }

  /** The captured value never holds a quote: the pattern's value class excludes both. */
  lemma ClassValueUnquoted(existing: String)
    ensures '"' !in ClassValue(existing) && '\'' !in ClassValue(existing)
  {
    match FirstMatch(ClassAttr, existing)
    case Some(m) =>
      var content := existing[m.start + 7 .. m.end - 1];
      assert forall x :: x in content ==> x !in Quotes;
    case None =>
  }

  /** `existing_classes`: the stripped value of the first `class="…"`, or "". */
  function ExistingClasses(existing: String): (r: String)
    ensures Trimmed(r) && '"' !in r && '\'' !in r
    ensures FirstMatch(ClassAttr, existing).None? ==> r == []
  {
    ClassValueUnquoted(existing);
    Strip(ClassValue(existing))
  }

  /** `[existing, new].reject(&:empty?).join(" ")`: existing classes first, then the caller's,
      one space between them, nothing removed or deduplicated. */
  function CombineClasses(existing: String, caller: String): (r: String)
    ensures r == [] <==> existing == [] && caller == []
    ensures existing == [] ==> r == caller
    ensures caller == [] ==> r == existing
    ensures existing != [] && caller != [] ==> r == existing + " " + caller
  {
    var parts := [existing, caller];
    assert parts[1..] == [caller] && parts[1..][1..] == [];
    var kept := (if existing == [] then [] else [existing]) + (if caller == [] then [] else [caller]);
    assert NonEmpty(parts) == kept;
    if existing != [] && caller != [] then JoinCons(existing, [caller], " "); Join(kept, " ")
    else Join(kept, " ")
  }

  /** The class branch: the existing attribute text with every `class="…"` taken out and
      stripped, and the class attribute to emit (none when the combined value is empty). The
      class value is written as is, without `escape_html`. */
  function MergeClass(existing: String, caller: String): (r: (String, seq<Attr>))
    ensures Trimmed(r.0) && |r.0| <= |existing|
    ensures FirstMatch(ClassAttr, existing).None? ==> r.0 == Strip(existing)
    ensures |r.1| <= 1
    ensures r.1 == [] <==> ExistingClasses(existing) == [] && caller == []
    ensures r.1 != [] ==> r.1[0] == Attr("class", CombineClasses(ExistingClasses(existing), caller))
  {
    var combined := CombineClasses(ExistingClasses(existing), caller);
    (Strip(RemoveAll(ClassAttr, existing)), if combined == [] then [] else [Attr("class", combined)])
  }

  /** The kept existing attribute text and the attributes appended after it. */
  function NewAttrs(existing: String, opts: Options): (r: (String, seq<Attr>))
    requires Supported(opts)
    ensures CallerClass(opts).None? ==> r == (existing, OtherAttrs(opts))
    ensures CallerClass(opts).Some? ==>
      var m := MergeClass(existing, NormalizeClass(CallerClass(opts).value));
      r == (m.0, m.1 + OtherAttrs(opts))
    ensures forall k :: 0 < k < |r.1| ==> r.1[k].name != "class"
  {
    match CallerClass(opts)
    case Some(v) =>
      assert Lookup(opts, "class") == Some(v);
      var m := MergeClass(existing, NormalizeClass(v));
      (m.0, m.1 + OtherAttrs(opts))
    case None => (existing, OtherAttrs(opts))
  }

  /** `[existing_attrs, *new_attrs].reject(&:empty?).join(" ")`. */
  function TagAttributes(existing: String, opts: Options): String
    requires Supported(opts)
  {
    var n := NewAttrs(existing, opts);
    Join(NonEmpty([n.0] + RenderAll(n.1)), " ")
  }

  /** Reading of the tag's attribute text: the kept existing text, if any, then the rendered new
      attributes, each separated by one space. */
  function Layout(kept: String, attrs: seq<Attr>): String {
    if kept == [] then Join(RenderAll(attrs), " ")
    else if attrs == [] then kept
    else kept + " " + Join(RenderAll(attrs), " ")
  }

  lemma TagAttributesLayout(existing: String, opts: Options)
    requires Supported(opts)
    ensures var n := NewAttrs(existing, opts); TagAttributes(existing, opts) == Layout(n.0, n.1)
  {
    var n := NewAttrs(existing, opts);
    var rendered := RenderAll(n.1);
    assert forall k :: 0 <= k < |rendered| ==> rendered[k] != [] by {
      forall k | 0 <= k < |rendered| ensures rendered[k] != [] {
        assert rendered[k][|n.1[k].name|] == '=';
      }
    }
    assert NonEmpty(rendered) == rendered;
    assert NonEmpty([n.0] + rendered) == (if n.0 == [] then [] else [n.0]) + NonEmpty(rendered) by {
      assert ([n.0] + rendered)[1..] == rendered;
    }
    if n.0 == [] {
      assert [] + rendered == rendered;
    } else if rendered == [] {
      assert [n.0] + [] == [n.0];
    } else {
      JoinCons(n.0, rendered, " ");
    }
  }

  /** Without a class option the existing attribute text is kept verbatim in front, including
      any `class="…"` and any attribute a caller's option repeats. */
  lemma KeepsExistingWithoutClass(existing: String, opts: Options)
    requires Supported(opts) && CallerClass(opts).None?
    ensures TagAttributes(existing, opts) == Layout(existing, OtherAttrs(opts))
    ensures HasAt(TagAttributes(existing, opts), 0, existing)
  {
    TagAttributesLayout(existing, opts);
  }

  /** With a class option, the class attribute (if any) comes first among the new attributes,
      after the remaining existing text, and no other new attribute is named `class`. */
  lemma ClassAttributeFirst(existing: String, opts: Options)
    requires Supported(opts) && CallerClass(opts).Some?
    ensures var combined := CombineClasses(ExistingClasses(existing), NormalizeClass(CallerClass(opts).value));
      var n := NewAttrs(existing, opts);
      && n.0 == Strip(RemoveAll(ClassAttr, existing))
      && (combined == [] ==> n.1 == OtherAttrs(opts))
      && (combined != [] ==> n.1 == [Attr("class", combined)] + OtherAttrs(opts))
  {
    var m := MergeClass(existing, NormalizeClass(CallerClass(opts).value));
    if m.1 == [] {
      assert [] + OtherAttrs(opts) == OtherAttrs(opts);
    }
  }

  lemma ClassValueFrom(existing: String, start: nat, end: nat, c: String)
    requires FirstMatch(ClassAttr, existing) == Some(Span(start, end))
    requires existing[start + 7 .. end - 1] == c
    ensures ClassValue(existing) == c
  {
  }

  /** The existing classes are the stripped value of the tag's first `class="…"` (either quote
      kind), whatever comes before or after it. */
  lemma ExistingClassesOf(pre: String, q1: char, c: String, q2: char, post: String)
    requires q1 in Quotes && q2 in Quotes && '"' !in c && '\'' !in c
    requires forall k: nat, e: nat :: k < |pre| ==>
      !Matches(ClassAttr, pre + "class=" + [q1] + c + [q2] + post, k, e)
    ensures ClassValue(pre + "class=" + [q1] + c + [q2] + post) == c
    ensures ExistingClasses(pre + "class=" + [q1] + c + [q2] + post) == Strip(c)
  {
    FirstClassAttr(pre, q1, c, q2, post);
    ClassValueAt(pre, q1, c, q2, post);
    ClassValueFrom(pre + "class=" + [q1] + c + [q2] + post, |pre|, |pre| + |c| + 8, c);
  }

  /** A String class option on a tag that has a class attribute: one class attribute is
      emitted, holding the tag's own classes first and then the caller's, and it is the only
      new attribute. */
  lemma ClassJoinsExisting(pre: String, q1: char, c: String, q2: char, post: String, caller: String)
    requires q1 in Quotes && q2 in Quotes && '"' !in c && '\'' !in c
    requires forall k: nat, e: nat :: k < |pre| ==>
      !Matches(ClassAttr, pre + "class=" + [q1] + c + [q2] + post, k, e)
    ensures Supported([("class", Str(caller))])
    ensures var n := NewAttrs(pre + "class=" + [q1] + c + [q2] + post, [("class", Str(caller))]).1;
      && (Strip(c) == [] && caller == [] ==> n == [])
      && (Strip(c) != [] && caller == [] ==> n == [Attr("class", Strip(c))])
      && (Strip(c) == [] && caller != [] ==> n == [Attr("class", caller)])
      && (Strip(c) != [] && caller != [] ==> n == [Attr("class", Strip(c) + " " + caller)])
  {
    var s := pre + "class=" + [q1] + c + [q2] + post;
    var opts := [("class", Str(caller))];
    ExistingClassesOf(pre, q1, c, q2, post);
    assert Lookup(opts, "class") == Some(Str(caller));
    assert OtherAttrs(opts) == [] by {
      assert opts[1..] == [];
    }
    ClassAttributeFirst(s, opts);
  }

  /** With a class option, on a tag that has exactly one class attribute (either quote kind),
      that attribute is cut out of the existing text and the text before and after it is kept,
      stripped. */
  lemma ClassKeepsRest(pre: String, q1: char, c: String, q2: char, post: String, opts: Options)
    requires q1 in Quotes && q2 in Quotes && '"' !in c && '\'' !in c
    requires forall k: nat, e: nat :: k < |pre| ==>
      !Matches(ClassAttr, pre + "class=" + [q1] + c + [q2] + post, k, e)
    requires FirstMatch(ClassAttr, post).None?
    requires Supported(opts) && CallerClass(opts).Some?
    ensures NewAttrs(pre + "class=" + [q1] + c + [q2] + post, opts).0 == Strip(pre + post)
  {
    RemoveClassAttr(pre, q1, c, q2, post);
    ClassAttributeFirst(pre + "class=" + [q1] + c + [q2] + post, opts);
  }

  /** The rebuilt opening tag: `"<svg #{all_attrs}>"`. */
  function NewTag(existing: String, opts: Options): String
    requires Supported(opts)
  {
    "<svg " + TagAttributes(existing, opts) + ">"
  }

  /** Without a class option the captured attribute text keeps its leading space, so the
      rebuilt tag of an icon file such as `<svg viewBox=…>` starts with two spaces. */
  lemma DoubleSpaceWithoutClass(existing: String, opts: Options)
    requires Supported(opts) && CallerClass(opts).None?
    requires |existing| > 0 && existing[0] == ' '
    ensures HasAt(NewTag(existing, opts), 0, "<svg  ")
  {
    KeepsExistingWithoutClass(existing, opts);
    var t := TagAttributes(existing, opts);
    assert t[0] == ' ';
    var tag := NewTag(existing, opts);
    assert tag[..6] == "<svg " + [t[0]];
  }

  /** `merge_html_attributes`: without options, or without an opening tag, the SVG comes back
      as it is; otherwise the span of the first opening tag is replaced by a tag carrying the
      merged attributes, built from the text the tag's `([^>]*)` group captured. */
  function MergeAttributes(svg: String, opts: Options): (r: String)
    requires Supported(opts)
    ensures |opts| == 0 ==> r == svg
    ensures FirstMatch(SvgOpenTag, svg).None? ==> r == svg
    ensures |opts| > 0 && FirstMatch(SvgOpenTag, svg).Some? ==>
      var m := FirstMatch(SvgOpenTag, svg).value;
      r == ReplaceSpan(svg, m, NewTag(Substring(svg, m.start + 4, m.end - 1), opts))
  {
    if |opts| == 0 then svg
    else
      match FirstMatch(SvgOpenTag, svg)
      case None => svg
      case Some(m) => ReplaceSpan(svg, m, NewTag(Substring(svg, m.start + 4, m.end - 1), opts))
  }
}

=== FILE: icon.dfy ===
/** The `Icon` component: the accepted variants and sizes, the checks its constructor makes, and
    `svg_content`, which fetches the raw SVG through the cache and merges the caller's options
    into it. */
module Icon {
  import opened Wrappers
  import opened Text
  import opened Attributes
  import opened IconCache

  /** `VARIANTS`. */
  const Variants: seq<String> := ["outline", "solid"]

  /** `SIZES`. */
  const Sizes: seq<String> := ["16", "20", "24"]

  /** The keyword defaults of `initialize`. */
  const DefaultVariant: String := "outline"
  const DefaultSize: Option<String> := Some("24")

  /** A constructed component: its name, variant and size after `to_s`, and the remaining
      keyword arguments as the option list. */
  datatype Icon = Icon(name: String, variant: String, size: Option<String>, options: Options)

  /** `validate_variant!`: the variant must be one of `VARIANTS`; otherwise the `ArgumentError`
      message names it and lists the accepted ones. */
  function ValidateVariant(variant: String): (r: Result<(), String>)
    ensures r.Ok? <==> variant in Variants
    ensures r.Err? ==> r.error == "Invalid variant: " + variant + ". Must be one of: outline, solid"
  {
    if variant in Variants then Ok(())
    else
      assert Join(Variants, ", ") == "outline, solid" by {
        JoinCons("outline", ["solid"], ", ");
      }
      Err("Invalid variant: " + variant + ". Must be one of: " + Join(Variants, ", "))
  }

  /** `validate_size!`: a nil size is accepted, any other must be one of `SIZES`. */
  function ValidateSize(size: Option<String>): (r: Result<(), String>)
    ensures r.Ok? <==> size.None? || size.value in Sizes
    ensures r.Err? ==> r.error == "Invalid size: " + size.value + ". Must be one of: 16, 20, 24"
  {
    if size.None? || size.value in Sizes then Ok(())
    else
      assert Join(Sizes, ", ") == "16, 20, 24" by {
        JoinCons("20", ["24"], ", ");
        JoinCons("16", ["20", "24"], ", ");
      }
      Err("Invalid size: " + size.value + ". Must be one of: " + Join(Sizes, ", "))
  }

  /** `Icon.new`: the variant is checked first, then the size; the first failure is raised. */
  function NewIcon(name: String, variant: String, size: Option<String>, options: Options)
    : (r: Result<Icon, String>)
    ensures r.Ok? <==> variant in Variants && (size.None? || size.value in Sizes)
    ensures r.Ok? ==> r.value == Icon(name, variant, size, options)
    ensures variant !in Variants ==> r == Err(ValidateVariant(variant).error)
    ensures variant in Variants && r.Err? ==> r == Err(ValidateSize(size).error)
  {
    match ValidateVariant(variant)
    case Err(e) => Err(e)
    case Ok(_) =>
      match ValidateSize(size)
      case Err(e) => Err(e)
      case Ok(_) => Ok(Icon(name, variant, size, options))
  }

  /** The defaults pass validation. */
  lemma DefaultsValid(name: String, options: Options)
    ensures NewIcon(name, DefaultVariant, DefaultSize, options).Ok?
  {
    assert DefaultVariant == Variants[0];
    assert DefaultSize.value == Sizes[2];
  }

  /** Every accepted size and variant is free of `/`, so the cache keys of valid icons are
      unambiguous. */
  lemma ValidHasNoSlash(variant: String, size: Option<String>)
    requires variant in Variants && (size.None? || size.value in Sizes)
    ensures '/' !in variant && '/' !in SizeText(size)
  {
  }

  function KeyOf(icon: Icon): IconKey {
    IconKey(icon.size, icon.variant, icon.name)
  }

  /** `svg_content`: the cached or freshly loaded SVG with the options merged in, or `""` when
      there is no file or it is empty. The cache changes as `IconCache.get` changes it. */
  function SvgContent(cache: Cache, read: Reader, icon: Icon): (r: (String, Cache))
    requires Supported(icon.options)
    ensures var got := Get(cache, read, KeyOf(icon));
      && r.1 == got.1
      && (got.0.None? || got.0.value == [] ==> r.0 == [])
      && (got.0.Some? && got.0.value != [] ==> r.0 == MergeAttributes(got.0.value, icon.options))
  {
    var got := Get(cache, read, KeyOf(icon));
    var raw := got.0.GetOr([]);
    if raw == [] then ([], got.1) else (MergeAttributes(raw, icon.options), got.1)
  }

  /** Without options the loaded SVG is returned as it is. */
  lemma SvgContentWithoutOptions(cache: Cache, read: Reader, icon: Icon)
    requires icon.options == []
    ensures var got := Get(cache, read, KeyOf(icon));
      SvgContent(cache, read, icon).0 == got.0.GetOr([])
  {
  }

  /** A missing icon file renders as the empty string and leaves the cache alone. */
  lemma MissingIconIsEmpty(cache: Cache, read: Reader, icon: Icon)
    requires Supported(icon.options)
    requires CacheKey(KeyOf(icon)) !in cache && read(KeyOf(icon)).None?
    ensures SvgContent(cache, read, icon) == ([], cache)
  {
  }

  /** Rendering the same icon twice gives the same markup and leaves the cache as the first
      rendering left it. */
  lemma SvgContentTwice(cache: Cache, read: Reader, icon: Icon)
    requires Supported(icon.options)
    ensures var first := SvgContent(cache, read, icon); var second := SvgContent(first.1, read, icon);
      second == first
  {
    GetTwice(cache, read, KeyOf(icon));
  }

  /** Two valid icons that differ in size, variant or name occupy two cache entries once both
      are rendered after a `clear`, provided both files exist. */
  lemma ValidIconsCachedSeparately(cache: Cache, read: Reader, i1: Icon, i2: Icon)
    requires NewIcon(i1.name, i1.variant, i1.size, i1.options) == Ok(i1)
    requires NewIcon(i2.name, i2.variant, i2.size, i2.options) == Ok(i2)
    requires Supported(i1.options) && Supported(i2.options)
    requires SizeText(i1.size) != SizeText(i2.size) || i1.variant != i2.variant || i1.name != i2.name
    requires read(KeyOf(i1)).Some? && read(KeyOf(i2)).Some?
    ensures CacheSize(SvgContent(SvgContent(Clear(cache), read, i1).1, read, i2).1) == 2
  {
    ValidHasNoSlash(i1.variant, i1.size);
    ValidHasNoSlash(i2.variant, i2.size);
    SeparateEntries(cache, read, KeyOf(i1), KeyOf(i2));
  }
}

=== FILE: icon_cache.dfy ===
/** `IconCache`: a process-wide map from `size/variant/name` to cleaned SVG text.

    The cache is a value threaded through the operations: `Get` takes the current map and
    returns the new one beside its result. The file system is a `Reader` parameter. */
module IconCache {
  import opened Wrappers
  import opened Text
  import opened Patterns

  /** The keyword arguments of `IconCache.get`; `size` is `None` for nil. */
  datatype IconKey = IconKey(size: Option<String>, variant: String, name: String)

  /** The contents of `@cache`. */
  type Cache = map<String, String>

  /** `File.exist?` and `File.read` on the icon's path: the raw file, or `None` when there is
      no such file. */
  type Reader = IconKey -> Option<String>

  /** `"#{size}"`: nil interpolates as the empty string. */
  function SizeText(size: Option<String>): String {
    size.GetOr([])
  }

  /** `cache_key`: `"#{size}/#{variant}/#{name}"`. */
  function CacheKey(k: IconKey): String {
    SizeText(k.size) + "/" + k.variant + "/" + k.name
  }

  /** The text before the first `c` and the text after it. */
  function SplitOnce(s: String, c: char): (r: Option<(String, String)>)
    ensures r.None? <==> c !in s
    ensures r.Some? ==> c !in r.value.0 && s == r.value.0 + [c] + r.value.1
  {
    match FirstIn(s, 0, {c})
    case Some(j) =>
      assert s == s[..j] + [c] + s[j + 1..];
      assert forall x :: x in s[..j] ==> x != c;
      Some((s[..j], s[j + 1..]))
    case None =>
      assert forall x :: x in s ==> x != c;
      None
  }

  /** Reads a key back as its size text, variant and name, cutting at the first two slashes. */
  function ParseKey(key: String): Option<(String, String, String)> {
    match SplitOnce(key, '/')
    case None => None
    case Some((size, rest)) =>
      match SplitOnce(rest, '/')
      case None => None
      case Some((variant, name)) => Some((size, variant, name))
  }

  lemma SplitOnceAt(a: String, b: String, c: char)
    requires c !in a
    ensures SplitOnce(a + [c] + b, c) == Some((a, b))
  {
    var s := a + [c] + b;
    assert s[|a|] == c;
    var r := SplitOnce(s, c);
    assert r.Some?;
    var p := r.value.0;
    assert |p| == |a|;
    assert p == s[..|a|] == a;
    assert r.value.1 == s[|a| + 1..] == b;
  }

  /** A key made of a slash-free size and variant reads back as the triple it came from. */
  lemma ParseCacheKey(k: IconKey)
    requires '/' !in SizeText(k.size) && '/' !in k.variant
    ensures ParseKey(CacheKey(k)) == Some((SizeText(k.size), k.variant, k.name))
  {
    var rest := k.variant + "/" + k.name;
    assert CacheKey(k) == SizeText(k.size) + ['/'] + rest;
    SplitOnceAt(SizeText(k.size), rest, '/');
    assert rest == k.variant + ['/'] + k.name;
    SplitOnceAt(k.variant, k.name, '/');
  }

  /** For slash-free sizes and variants, distinct arguments get distinct cache entries. A nil
      size and the size `""` share one, since both are written as the empty string. */
  lemma CacheKeyInjective(k1: IconKey, k2: IconKey)
    requires '/' !in SizeText(k1.size) && '/' !in k1.variant
    requires '/' !in SizeText(k2.size) && '/' !in k2.variant
    ensures CacheKey(k1) == CacheKey(k2) <==>
      SizeText(k1.size) == SizeText(k2.size) && k1.variant == k2.variant && k1.name == k2.name
  {
    ParseCacheKey(k1);
    ParseCacheKey(k2);
  }

  /** A slash inside the size lets two different argument triples share a cache entry. */
  lemma CacheKeyCollision(a: String, b: String, c: String)
    ensures CacheKey(IconKey(Some(a + "/" + b), c, "x")) == CacheKey(IconKey(Some(a), b, c + "/x"))
  {
    assert a + "/" + b + "/" + c + "/" + "x" == a + "/" + b + "/" + (c + "/x");
  }

  /** The cleanup in `load_from_file`: every `<?xml … ?>` declaration is deleted, then the
      surrounding whitespace is stripped. The text is kept as is exactly when it has no
      declaration and no surrounding whitespace. */
  function CleanContent(raw: String): (r: String)
    ensures Trimmed(r) && |r| <= |raw|
    ensures r == raw <==> FirstMatch(XmlDecl, raw).None? && Trimmed(raw)
    ensures FirstMatch(XmlDecl, raw).None? ==> r == Strip(raw)
  {
    Strip(RemoveAll(XmlDecl, raw))
  }

  /** A file holding one XML declaration loses exactly that declaration, and the text around
      it is kept and stripped as one. */
  lemma CleanContentDeclaration(pre: String, d: String, rest: String)
    requires '>' !in d
    requires forall k: nat, e: nat :: k < |pre| ==> !Matches(XmlDecl, pre + "<?xml" + d + "?>" + rest, k, e)
    requires FirstMatch(XmlDecl, rest).None?
    ensures CleanContent(pre + "<?xml" + d + "?>" + rest) == Strip(pre + rest)
  {
    RemoveDeclaration(pre, d, rest);
  }

  /** The usual shape: a file that starts with its declaration is cleaned to the stripped text
      after it. */
  lemma CleanContentLeadingDeclaration(d: String, rest: String)
    requires '>' !in d
    requires FirstMatch(XmlDecl, rest).None?
    ensures CleanContent("<?xml" + d + "?>" + rest) == Strip(rest)
  {
    CleanContentDeclaration([], d, rest);
    assert [] + "<?xml" == "<?xml";
    assert [] + rest == rest;
  }

  /** `load_from_file`: nil when the file is missing, otherwise its cleaned content. */
  function LoadFromFile(read: Reader, k: IconKey): (r: Option<String>)
    ensures r.None? <==> read(k).None?
    ensures r.Some? ==> Trimmed(r.value) && |r.value| <= |read(k).value|
  {
    match read(k)
    case None => None
    case Some(raw) => Some(CleanContent(raw))
  }

  /** `IconCache.get`, with the two lookups under the mutex taken as one step. A stored entry
      is returned without reading; on a miss the loaded content, even an empty one, is stored;
      a missing file stores nothing. No other entry changes. */
  function Get(cache: Cache, read: Reader, k: IconKey): (r: (Option<String>, Cache))
    ensures CacheKey(k) in cache ==> r == (Some(cache[CacheKey(k)]), cache)
    ensures CacheKey(k) !in cache ==> r.0 == LoadFromFile(read, k)
    ensures r.0.Some? ==> CacheKey(k) in r.1 && r.1[CacheKey(k)] == r.0.value
    ensures r.1.Keys == cache.Keys + (if r.0.Some? then {CacheKey(k)} else {})
    ensures forall key :: key in cache ==> key in r.1 && r.1[key] == cache[key]
  {
    var key := CacheKey(k);
    if key in cache then (Some(cache[key]), cache)
    else
      match LoadFromFile(read, k)
      case Some(content) => (Some(content), cache[key := content])
      case None => (None, cache)
  }

  /** `clear`. */
  function Clear(cache: Cache): (r: Cache)
    ensures CacheSize(r) == 0
  {
    map[]
  }

  /** `cache_size`. */
  function CacheSize(cache: Cache): nat {
    |cache|
  }

  /** A hit does not consult the file system: any two readers give the same answer. */
  lemma HitIgnoresReader(cache: Cache, read1: Reader, read2: Reader, k: IconKey)
    requires CacheKey(k) in cache
    ensures Get(cache, read1, k) == Get(cache, read2, k)
  {
  }

  /** Asking twice with no `clear` in between gives the same answer, and the second call leaves
      the cache as the first one left it. */
  lemma GetTwice(cache: Cache, read: Reader, k: IconKey)
    ensures var first := Get(cache, read, k); var second := Get(first.1, read, k);
      second.0 == first.0 && second.1 == first.1
  {
  }

  /** One `get` adds at most one entry. */
  lemma GetGrowsByAtMostOne(cache: Cache, read: Reader, k: IconKey)
    ensures var after := Get(cache, read, k).1;
      CacheSize(cache) <= CacheSize(after) <= CacheSize(cache) + 1
  {
    var after := Get(cache, read, k).1;
    if CacheKey(k) in after && CacheKey(k) !in cache {
      assert after.Keys == cache.Keys + {CacheKey(k)};
      assert |after.Keys| == |cache.Keys| + 1;
    } else {
      assert after.Keys == cache.Keys;
    }
  }

  /** Two icons that differ in size, variant or name get two entries in an empty cache, as long
      as their sizes and variants hold no slash and both files exist. */
  lemma SeparateEntries(cache: Cache, read: Reader, k1: IconKey, k2: IconKey)
    requires '/' !in SizeText(k1.size) && '/' !in k1.variant
    requires '/' !in SizeText(k2.size) && '/' !in k2.variant
    requires SizeText(k1.size) != SizeText(k2.size) || k1.variant != k2.variant || k1.name != k2.name
    requires read(k1).Some? && read(k2).Some?
    ensures CacheSize(Get(Get(Clear(cache), read, k1).1, read, k2).1) == 2
  {
    CacheKeyInjective(k1, k2);
    var c1 := Get(map[], read, k1).1;
    assert c1.Keys == {CacheKey(k1)};
    var c2 := Get(c1, read, k2).1;
    assert c2.Keys == {CacheKey(k1), CacheKey(k2)};
    assert |c2.Keys| == 2;
  }
}

=== FILE: patterns.dfy ===
/** The three regular expressions of the component, written out as scanners.

    A regular expression engine looks for the leftmost start position at which the pattern
    matches; at a given start each of these patterns can match in at most one way, so a pattern
    is fully described by `Matches(p, s, i, e)`: "the match starting at `i` ends just before `e`". */
module Patterns {
  import opened Wrappers
  import opened Text

  datatype Pattern =
    | SvgOpenTag   // /<svg([^>]*)>/ in merge_html_attributes, and /<svg[^>]*>/ for the replacement
    | ClassAttr    // /class=["']([^"']*)["']/ (first match) and /class=["'][^"']*["']/ (gsub)
    | XmlDecl      // /<\?xml[^>]*\?>/ in load_from_file

  const Quotes: set<char> := {'"', '\''}

  /** A half-open range `[start, end)` of a string. */
  datatype Span = Span(start: nat, end: nat)

  /** The shortest text each pattern can match: `<svg>`, `class=""`, `<?xml?>`. */
  function MinLength(p: Pattern): nat {
    match p
    case SvgOpenTag => 5
    case ClassAttr => 8
    case XmlDecl => 7
  }

  /** Declarative reading of the patterns: the text `s[i..e]` is a match of `p`. */
  predicate Matches(p: Pattern, s: String, i: nat, e: nat) {
    match p
    case SvgOpenTag =>
      // "<svg", then any run of non-'>' characters, then '>'
      && HasAt(s, i, "<svg") && i + 4 < e <= |s|
      && s[e - 1] == '>' && NoneIn(s, i + 4, e - 1, {'>'})
    case ClassAttr =>
      // "class=", an opening quote of either kind, a run without quotes, a closing quote
      && HasAt(s, i, "class=") && i + 7 < e <= |s|
      && s[i + 6] in Quotes && s[e - 1] in Quotes && NoneIn(s, i + 7, e - 1, Quotes)
    case XmlDecl =>
      // "<?xml", then any run of non-'>' characters, then "?>"
      && HasAt(s, i, "<?xml") && i + 7 <= e <= |s|
      && s[e - 2] == '?' && s[e - 1] == '>' && NoneIn(s, i + 5, e - 1, {'>'})
  }

  /** Where the match of `p` that starts at `i` ends, if `p` matches at `i`. */
  function MatchAt(p: Pattern, s: String, i: nat): (r: Option<nat>)
    ensures r.Some? ==> i < r.value <= |s| && Matches(p, s, i, r.value)
    ensures forall e: nat :: Matches(p, s, i, e) ==> r == Some(e)
  {
    match p
    case SvgOpenTag =>
      if HasAt(s, i, "<svg") then
        match FirstIn(s, i + 4, {'>'})
        case Some(j) => Some(j + 1)
        case None => None
      else None
    case ClassAttr =>
      if HasAt(s, i, "class=") && i + 6 < |s| && s[i + 6] in Quotes then
        match FirstIn(s, i + 7, Quotes)
        case Some(j) => Some(j + 1)
        case None => None
      else None
    case XmlDecl =>
      if HasAt(s, i, "<?xml") then
        match FirstIn(s, i + 5, {'>'})
        case Some(j) => if j >= i + 6 && s[j - 1] == '?' then Some(j + 1) else None
        case None => None
      else None
  }

  /** `String#match`: the leftmost match of `p` at or after `from`. */
  function FirstMatchFrom(p: Pattern, s: String, from: nat): (r: Option<Span>)
    requires from <= |s|
    ensures r.Some? ==> from <= r.value.start && MatchAt(p, s, r.value.start) == Some(r.value.end)
    ensures r.Some? ==> forall k :: from <= k < r.value.start ==> MatchAt(p, s, k).None?
    ensures r.None? ==> forall k :: from <= k < |s| ==> MatchAt(p, s, k).None?
    decreases |s| - from
  {
    if from == |s| then None
    else
      match MatchAt(p, s, from)
      case Some(e) => Some(Span(from, e))
      case None => FirstMatchFrom(p, s, from + 1)
  }

  /** The leftmost match of `p` in `s`: no match starts earlier. */
  function FirstMatch(p: Pattern, s: String): (r: Option<Span>)
    ensures r.Some? ==> r.value.start + MinLength(p) <= r.value.end <= |s|
    ensures r.Some? ==> Matches(p, s, r.value.start, r.value.end)
    ensures r.Some? ==> forall k: nat, e: nat :: k < r.value.start ==> !Matches(p, s, k, e)
    ensures r.None? ==> forall k: nat, e: nat :: !Matches(p, s, k, e)
  {
    var r := FirstMatchFrom(p, s, 0);
    assert forall k: nat, e: nat | Matches(p, s, k, e) :: k < |s| && MatchAt(p, s, k) == Some(e);
    r
  }

  /** `String#gsub(p, "")` from `from` on: every match found by scanning left to right, and
      resuming after each match, is deleted; the rest of the text is kept in order. */
  function RemoveAllFrom(p: Pattern, s: String, from: nat): (r: String)
    requires from <= |s|
    ensures r == s[from..] || |r| < |s| - from
    ensures r == s[from..] <==> forall k :: from <= k < |s| ==> MatchAt(p, s, k).None?
    decreases |s| - from
  {
    if from == |s| then []
    else
      match MatchAt(p, s, from)
      case Some(e) => RemoveAllFrom(p, s, e)
      case None =>
        var rest := RemoveAllFrom(p, s, from + 1);
        assert s[from..] == [s[from]] + s[from + 1..];
        [s[from]] + rest
  }

  /** `String#gsub(p, "")`. The text is left alone exactly when the pattern occurs nowhere in
      it; otherwise it gets strictly shorter. */
  function RemoveAll(p: Pattern, s: String): (r: String)
    ensures r == s <==> FirstMatch(p, s).None?
    ensures FirstMatch(p, s).Some? ==> |r| < |s|
  {
    RemoveAllFrom(p, s, 0)
  }

  /** A match with no match starting before it is the one `String#match` finds. */
  lemma FirstMatchIs(p: Pattern, s: String, i: nat, e: nat)
    requires Matches(p, s, i, e)
    requires forall k: nat, e': nat :: k < i ==> !Matches(p, s, k, e')
    ensures FirstMatch(p, s) == Some(Span(i, e))
  {
    var r := FirstMatch(p, s);
    assert r.Some?;
    assert !(r.value.start < i);
    assert MatchAt(p, s, i) == Some(e);
    assert MatchAt(p, s, r.value.start) == Some(r.value.end);
  }

  /** A character where no match starts is copied. */
  lemma RemoveAllFromCopies(p: Pattern, s: String, i: nat)
    requires i < |s| && MatchAt(p, s, i).None?
    ensures RemoveAllFrom(p, s, i) == [s[i]] + RemoveAllFrom(p, s, i + 1)
  {
  }

  lemma ConsAppend(c: char, a: String, b: String, sub: String, x: String, y: String)
    requires a == [c] + b && b == x + y && sub == [c] + x
    ensures a == sub + y
  {
  }

  /** Where no match starts, `gsub` copies the text. */
  lemma {:induction false} RemoveAllFromKeeps(p: Pattern, s: String, lo: nat, hi: nat)
    requires lo <= hi <= |s|
    requires forall k :: lo <= k < hi ==> MatchAt(p, s, k).None?
    ensures RemoveAllFrom(p, s, lo) == Substring(s, lo, hi) + RemoveAllFrom(p, s, hi)
    decreases hi - lo
  {
    if lo < hi {
      RemoveAllFromKeeps(p, s, lo + 1, hi);
      RemoveAllFromCopies(p, s, lo);
      ConsAppend(s[lo], RemoveAllFrom(p, s, lo), RemoveAllFrom(p, s, lo + 1),
        Substring(s, lo, hi), Substring(s, lo + 1, hi), RemoveAllFrom(p, s, hi));
    }
  }

  /** A match lying in the tail of a text is a match of that tail. */
  lemma MatchShift(p: Pattern, pre: String, t: String, k: nat, e: nat)
    requires Matches(p, pre + t, |pre| + k, |pre| + e)
    ensures Matches(p, t, k, e)
  {
    var s := pre + t;
    var lit := match p case SvgOpenTag => "<svg" case ClassAttr => "class=" case XmlDecl => "<?xml";
    assert s[|pre| + k .. |pre| + k + |lit|] == t[k .. k + |lit|];
    assert forall j :: k <= j < e ==> s[|pre| + j] == t[j];
  }

  /** A declaration `<?xml…?>` whose body has no `>` matches where it starts. */
  lemma DeclarationAt(pre: String, d: String, rest: String)
    requires '>' !in d
    ensures var head := pre + "<?xml" + d + "?>";
      MatchAt(XmlDecl, head + rest, |pre|) == Some(|head|)
  {
    var head := pre + "<?xml" + d + "?>";
    var s := head + rest;
    var i := |pre|;
    var e := |head|;
    assert s[i .. i + 5] == "<?xml";
    assert s[e - 2] == '?' && s[e - 1] == '>';
    assert forall j :: i + 5 <= j < e - 2 ==> s[j] == d[j - i - 5];
    assert Matches(XmlDecl, s, i, e);
  }

  /** No match starts in a tail that has none of its own. */
  lemma NoMatchIn(p: Pattern, head: String, rest: String)
    requires FirstMatch(p, rest).None?
    ensures forall k :: |head| <= k < |head + rest| ==> MatchAt(p, head + rest, k).None?
  {
    var s := head + rest;
    forall k | |head| <= k < |s|
      ensures MatchAt(p, s, k).None?
    {
      if MatchAt(p, s, k).Some? {
        MatchShift(p, head, rest, k - |head|, MatchAt(p, s, k).value - |head|);
        assert false;
      }
    }
  }

  /** After a prefix, `gsub` of a tail in which the pattern does not occur copies the tail. */
  lemma NoMatchAfter(p: Pattern, head: String, rest: String)
    requires FirstMatch(p, rest).None?
    ensures RemoveAllFrom(p, head + rest, |head|) == rest
  {
    NoMatchIn(p, head, rest);
    assert (head + rest)[|head|..] == rest;
  }

  /** A match is deleted whole and scanning resumes after it. */
  lemma RemoveAllFromSkips(p: Pattern, s: String, i: nat, e: nat)
    requires i < |s| && MatchAt(p, s, i) == Some(e)
    ensures RemoveAllFrom(p, s, i) == RemoveAllFrom(p, s, e)
  {
  }

  /** Reading the first characters of a text that agree with `pre` gives `pre`. */
  lemma SubstringOfPrefix(s: String, pre: String)
    requires |pre| <= |s| && forall j :: 0 <= j < |pre| ==> s[j] == pre[j]
    ensures Substring(s, 0, |pre|) == pre
  {
    SubstringIsSlice(s, 0, |pre|);
  }

  /** With no match starting in the first `i` characters, `gsub` copies them. */
  lemma NoMatchBefore(p: Pattern, s: String, i: nat)
    requires i <= |s|
    requires forall k: nat, e: nat :: k < i ==> !Matches(p, s, k, e)
    ensures RemoveAllFrom(p, s, 0) == Substring(s, 0, i) + RemoveAllFrom(p, s, i)
  {
    assert forall k :: 0 <= k < i ==> MatchAt(p, s, k).None?;
    RemoveAllFromKeeps(p, s, 0, i);
  }

  lemma RemoveMatchSteps(p: Pattern, s: String, i: nat, e: nat, pre: String, rest: String)
    requires i < |s| && MatchAt(p, s, i) == Some(e)
    requires RemoveAllFrom(p, s, 0) == Substring(s, 0, i) + RemoveAllFrom(p, s, i)
    requires Substring(s, 0, i) == pre && RemoveAllFrom(p, s, e) == rest
    ensures RemoveAll(p, s) == pre + rest
  {
    RemoveAllFromSkips(p, s, i, e);
  }

  /** `gsub(/<\?xml[^>]*\?>/, "")` on a text with one declaration, no declaration starting
      before it and none after it: the declaration is cut out and everything else is kept. */
  lemma RemoveDeclaration(pre: String, d: String, rest: String)
    requires '>' !in d
    requires forall k: nat, e: nat :: k < |pre| ==> !Matches(XmlDecl, pre + "<?xml" + d + "?>" + rest, k, e)
    requires FirstMatch(XmlDecl, rest).None?
    ensures RemoveAll(XmlDecl, pre + "<?xml" + d + "?>" + rest) == pre + rest
  {
    var head := pre + "<?xml" + d + "?>";
    var s := head + rest;
    DeclarationAt(pre, d, rest);
    NoMatchAfter(XmlDecl, head, rest);
    NoMatchBefore(XmlDecl, s, |pre|);
    SubstringOfPrefix(s, pre);
    RemoveMatchSteps(XmlDecl, s, |pre|, |head|, pre, rest);
  }

  /** `class=`, a quote, a quote-free value and a quote form a class attribute. */
  lemma ClassAttrAt(pre: String, q1: char, c: String, q2: char, post: String)
    requires q1 in Quotes && q2 in Quotes && '"' !in c && '\'' !in c
    ensures Matches(ClassAttr, pre + "class=" + [q1] + c + [q2] + post, |pre|, |pre| + |c| + 8)
  {
    var s := pre + "class=" + [q1] + c + [q2] + post;
    var i := |pre|;
    assert s[i .. i + 6] == "class=";
    assert s[i + 6] == q1 && s[i + |c| + 7] == q2;
    assert forall j :: i + 7 <= j < i + |c| + 7 ==> s[j] == c[j - i - 7];
  }

  /** The value between the quotes of that class attribute is `c`. */
  lemma ClassValueAt(pre: String, q1: char, c: String, q2: char, post: String)
    ensures var s := pre + "class=" + [q1] + c + [q2] + post;
      s[|pre| + 7 .. |pre| + |c| + 7] == c
  {
    var s := pre + "class=" + [q1] + c + [q2] + post;
    assert forall j :: 0 <= j < |c| ==> s[|pre| + 7 + j] == c[j];
  }

  /** The first class attribute of a text is the one that no class attribute precedes. */
  lemma FirstClassAttr(pre: String, q1: char, c: String, q2: char, post: String)
    requires q1 in Quotes && q2 in Quotes && '"' !in c && '\'' !in c
    requires forall k: nat, e: nat :: k < |pre| ==>
      !Matches(ClassAttr, pre + "class=" + [q1] + c + [q2] + post, k, e)
    ensures FirstMatch(ClassAttr, pre + "class=" + [q1] + c + [q2] + post)
         == Some(Span(|pre|, |pre| + |c| + 8))
  {
    ClassAttrAt(pre, q1, c, q2, post);
    FirstMatchIs(ClassAttr, pre + "class=" + [q1] + c + [q2] + post, |pre|, |pre| + |c| + 8);
  }

  /** The class attribute at the end of `head` matches where it starts and ends with `head`. */
  lemma ClassAttrEndsHead(pre: String, q1: char, c: String, q2: char, post: String)
    requires q1 in Quotes && q2 in Quotes && '"' !in c && '\'' !in c
    ensures var head := pre + "class=" + [q1] + c + [q2];
      MatchAt(ClassAttr, head + post, |pre|) == Some(|head|)
  {
    ClassAttrAt(pre, q1, c, q2, post);
  }

  /** `gsub(/class=["'][^"']*["']/, "")` on a text with one class attribute, none starting
      before it and none after it: the attribute is cut out and everything else is kept. */
  lemma RemoveClassAttr(pre: String, q1: char, c: String, q2: char, post: String)
    requires q1 in Quotes && q2 in Quotes && '"' !in c && '\'' !in c
    requires forall k: nat, e: nat :: k < |pre| ==>
      !Matches(ClassAttr, pre + "class=" + [q1] + c + [q2] + post, k, e)
    requires FirstMatch(ClassAttr, post).None?
    ensures RemoveAll(ClassAttr, pre + "class=" + [q1] + c + [q2] + post) == pre + post
  {
    var head := pre + "class=" + [q1] + c + [q2];
    var s := head + post;
    ClassAttrEndsHead(pre, q1, c, q2, post);
    NoMatchAfter(ClassAttr, head, post);
    NoMatchBefore(ClassAttr, s, |pre|);
    SubstringOfPrefix(s, pre);
    RemoveMatchSteps(ClassAttr, s, |pre|, |head|, pre, post);
  }

  /** The text with the span `m` replaced by `t`, as `String#sub` leaves it once the match is
      known: what lies before and after the span is kept. */
  function ReplaceSpan(s: String, m: Span, t: String): String
    requires m.start <= m.end <= |s|
  {
    s[..m.start] + t + s[m.end..]
  }

  lemma ReplaceSpanParts(s: String, m: Span, t: String)
    requires m.start <= m.end <= |s|
    ensures var r := ReplaceSpan(s, m, t);
      && |r| == m.start + |t| + (|s| - m.end)
      && r[..m.start] == s[..m.start]
      && r[m.start .. m.start + |t|] == t
      && r[m.start + |t|..] == s[m.end..]
  {
  }

  /** An opening tag at the very start of the text is the one found. */
  lemma SvgTagAtStart(attrs: String, rest: String)
    requires '>' !in attrs
    ensures FirstMatch(SvgOpenTag, "<svg" + attrs + ">" + rest) == Some(Span(0, |attrs| + 5))
  {
    var s := "<svg" + attrs + ">" + rest;
    assert s[0..4] == "<svg";
    assert forall k :: 4 <= k < |attrs| + 4 ==> s[k] == attrs[k - 4];
    assert Matches(SvgOpenTag, s, 0, |attrs| + 5);
  }
}

=== FILE: scenarios.dfy ===
/** Worked consequences of the merge for the shapes of SVG the component ships with. */
module Scenarios {
  import opened Wrappers
  import opened Text
  import opened Patterns
  import opened Attributes

  /** Attribute text made of a space and text without a class attribute loses only that
      space. */
  lemma PlainExisting(kept: String)
    requires Trimmed(kept) && FirstMatch(ClassAttr, " " + kept).None?
    ensures ExistingClasses(" " + kept) == []
    ensures MergeClass(" " + kept, []).0 == kept
  {
    StripLeadingSpace(kept);
  }

  /** The options `class: [...], id: "..."`. */
  lemma ClassAndId(classes: seq<String>, id: String)
    requires '"' !in id && '\'' !in id
    ensures var opts := [("class", Words(classes)), ("id", Str(id))];
      && Supported(opts)
      && CallerClass(opts) == Some(Words(classes))
      && OtherAttrs(opts) == [Attr("id", id)]
  {
    var opts := [("class", Words(classes)), ("id", Str(id))];
    assert Lookup(opts, "class") == Some(Words(classes));
    assert opts[1..] == [("id", Str(id))];
    assert OtherAttrs(opts[1..][1..]) == [];
    assert Hyphenate("id") == "id";
  }

  lemma PlainTagNewAttrs(kept: String, classes: seq<String>, id: String)
    requires Trimmed(kept) && FirstMatch(ClassAttr, " " + kept).None?
    requires Join(classes, " ") != []
    requires '"' !in id && '\'' !in id
    ensures Supported([("class", Words(classes)), ("id", Str(id))])
    ensures NewAttrs(" " + kept, [("class", Words(classes)), ("id", Str(id))])
         == (kept, [Attr("class", Join(classes, " ")), Attr("id", id)])
  {
    var opts := [("class", Words(classes)), ("id", Str(id))];
    var joined := Join(classes, " ");
    PlainExisting(kept);
    ClassAndId(classes, id);
    assert CombineClasses([], joined) == joined;
    ClassAttributeFirst(" " + kept, opts);
    assert [Attr("class", joined)] + [Attr("id", id)] == [Attr("class", joined), Attr("id", id)];
  }

  /** An icon file whose opening tag carries no class, given an Array of classes and an id:
      the classes are joined with spaces and written first after the existing attributes (if
      any), then the id. */
  lemma PlainTagAttributes(kept: String, classes: seq<String>, id: String)
    requires Trimmed(kept) && FirstMatch(ClassAttr, " " + kept).None?
    requires Join(classes, " ") != []
    requires '"' !in id && '\'' !in id
    ensures Supported([("class", Words(classes)), ("id", Str(id))])
    ensures TagAttributes(" " + kept, [("class", Words(classes)), ("id", Str(id))])
         == (if kept == [] then [] else kept + " ") + "class=\"" + Join(classes, " ") + "\" id=\"" + id + "\""
  {
    var opts := [("class", Words(classes)), ("id", Str(id))];
    PlainTagNewAttrs(kept, classes, id);
    TwoAttrsLayout(" " + kept, opts, kept, Join(classes, " "), id);
  }

  lemma TwoAttrsLayout(existing: String, opts: Options, kept: String, joined: String, id: String)
    requires Supported(opts)
    requires NewAttrs(existing, opts) == (kept, [Attr("class", joined), Attr("id", id)])
    ensures TagAttributes(existing, opts)
         == (if kept == [] then [] else kept + " ") + "class=\"" + joined + "\" id=\"" + id + "\""
  {
    TagAttributesLayout(existing, opts);
    LayoutTwo(kept, joined, id);
  }

  /** The layout of a class attribute and an id after the kept text. */
  lemma LayoutTwo(kept: String, joined: String, id: String)
    ensures Layout(kept, [Attr("class", joined), Attr("id", id)])
         == (if kept == [] then [] else kept + " ") + "class=\"" + joined + "\" id=\"" + id + "\""
  {
    var added := [Attr("class", joined), Attr("id", id)];
    assert added != [] by {
      assert |added| == 2;
    }
    JoinTwo(joined, id);
    AfterKept(kept, Layout(kept, added), Join(RenderAll(added), " "),
      "class=\"" + joined + "\" id=\"" + id + "\"");
  }

  lemma JoinTwo(joined: String, id: String)
    ensures Join(RenderAll([Attr("class", joined), Attr("id", id)]), " ")
         == "class=\"" + joined + "\" id=\"" + id + "\""
  {
    var added := [Attr("class", joined), Attr("id", id)];
    var r0 := Render(added[0]);
    var r1 := Render(added[1]);
    assert RenderAll(added) == [r0] + [r1];
    JoinCons(r0, [r1], " ");
  }

  lemma AfterKept(kept: String, layout: String, j: String, tail: String)
    requires layout == (if kept == [] then j else kept + " " + j)
    requires j == tail && j != []
    ensures layout == (if kept == [] then [] else kept + " ") + tail
  {
    if kept == [] {
      assert [] + tail == tail;
    }
  }
}

=== FILE: text.dfy ===
/** The handful of Ruby `String` and `Array` operations the component relies on. */
module Text {
  import opened Wrappers

  type String = seq<char>

  /** Ruby's notion of whitespace for `String#strip`: NUL, tab, line feed, vertical tab,
      form feed, carriage return and space. */
  predicate IsSpace(c: char) {
    c == '\0' || c == '\t' || c == '\n' || c == '\U{0B}' || c == '\U{0C}' || c == '\r' || c == ' '
  }

  predicate AllSpace(s: String) {
    forall k :: 0 <= k < |s| ==> IsSpace(s[k])
  }

  /** Neither end of `s` is whitespace. */
  predicate Trimmed(s: String) {
    |s| == 0 || (!IsSpace(s[0]) && !IsSpace(s[|s| - 1]))
  }

  /** `s` holds `p` starting at index `i`. */
  predicate HasAt(s: String, i: int, p: String) {
    0 <= i && i + |p| <= |s| && s[i..i + |p|] == p
  }

  /** No character of `s[lo..hi]` is in `cs`. */
  predicate NoneIn(s: String, lo: int, hi: int, cs: set<char>)
    requires 0 <= lo && hi <= |s|
  {
    forall k :: lo <= k < hi ==> s[k] !in cs
  }

  /** The first index at or after `i` that does not hold whitespace, or `|s|`. */
  function SkipSpace(s: String, i: nat): (j: nat)
    requires i <= |s|
    ensures i <= j <= |s| && (j < |s| ==> !IsSpace(s[j]))
    ensures forall k :: i <= k < j ==> IsSpace(s[k])
    decreases |s| - i
  {
    if i < |s| && IsSpace(s[i]) then SkipSpace(s, i + 1) else i
  }

  /** The index just after the last non-whitespace character of `s[lo..j]`, or `lo`. */
  function SkipSpaceBack(s: String, lo: nat, j: nat): (e: nat)
    requires lo <= j <= |s|
    ensures lo <= e <= j && (e > lo ==> !IsSpace(s[e - 1]))
    ensures forall k :: e <= k < j ==> IsSpace(s[k])
    decreases j
  {
    if j > lo && IsSpace(s[j - 1]) then SkipSpaceBack(s, lo, j - 1) else j
  }

  /** `String#strip`: the text between the leading and the trailing whitespace. */
  function Strip(s: String): (r: String)
    ensures Trimmed(r)
    ensures |r| <= |s|
    ensures r == s <==> Trimmed(s)
    ensures r == [] <==> AllSpace(s)
    ensures forall x :: x in r ==> x in s
  {
    var a := SkipSpace(s, 0);
    var b := SkipSpaceBack(s, a, |s|);
    s[a..b]
  }

  /** `strip` removes only whitespace, and only at the ends: the result is a middle slice of
      the input with whitespace on either side. With `Trimmed(Strip(s))` this pins the result
      down completely. */
  lemma StripIsMiddle(s: String)
    ensures exists a: nat, b: nat ::
      a <= b <= |s| && Strip(s) == s[a..b] && AllSpace(s[..a]) && AllSpace(s[b..])
  {
    var a := SkipSpace(s, 0);
    var b := SkipSpaceBack(s, a, |s|);
    assert forall k :: 0 <= k < a ==> s[..a][k] == s[k];
    assert forall k :: 0 <= k < |s| - b ==> s[b..][k] == s[b + k];
    assert AllSpace(s[..a]) && AllSpace(s[b..]);
  }

  /** One leading space in front of already trimmed text is all that `strip` removes. */
  lemma StripLeadingSpace(s: String)
    requires Trimmed(s)
    ensures Strip(" " + s) == s
  {
    var t := " " + s;
    assert SkipSpace(t, 1) == 1;
    assert t[1..] == s;
  }

  /** `s[i..j]`, collected one character at a time. The captured group of a match is written
      with this function rather than as a slice: recursion keeps the solver from combining the
      slice with the other slices the merge takes, and `SubstringIsSlice` shows the two agree. */
  function Substring(s: String, i: nat, j: nat): (r: String)
    requires i <= j <= |s|
    ensures |r| == j - i
    decreases j - i
  {
    if i == j then [] else [s[i]] + Substring(s, i + 1, j)
  }

  lemma {:induction false} SubstringIsSlice(s: String, i: nat, j: nat)
    requires i <= j <= |s|
    ensures Substring(s, i, j) == s[i..j]
    decreases j - i
  {
    if i < j {
      SubstringIsSlice(s, i + 1, j);
      assert s[i..j] == [s[i]] + s[i + 1..j];
    }
  }

  /** `Array#join(sep)`. */
  function Join(parts: seq<String>, sep: String): String
  {
    if |parts| == 0 then []
    else if |parts| == 1 then parts[0]
    else parts[0] + sep + Join(parts[1..], sep)
  }

  /** Joining a first part in front of a non-empty rest puts exactly one separator between them. */
  lemma JoinCons(first: String, rest: seq<String>, sep: String)
    requires |rest| > 0
    ensures Join([first] + rest, sep) == first + sep + Join(rest, sep)
  {
    assert ([first] + rest)[1..] == rest;
  }

  /** `Array#reject(&:empty?)`: the non-empty parts, in their original order. */
  function NonEmpty(parts: seq<String>): (r: seq<String>)
    ensures |r| <= |parts|
    ensures forall k :: 0 <= k < |r| ==> r[k] != []
    ensures forall p :: p in parts && p != [] <==> p in r
    ensures (forall k :: 0 <= k < |parts| ==> parts[k] != []) ==> r == parts
  {
    if |parts| == 0 then []
    else
      var rest := NonEmpty(parts[1..]);
      assert forall p :: p in parts <==> p == parts[0] || p in parts[1..];
      (if parts[0] == [] then [] else [parts[0]]) + rest
  }

  /** `reject` works element by element: rejecting from a concatenation rejects from each part,
      so the kept parts stay in their order and keep their repetitions. */
  lemma {:induction false} NonEmptyAppend(a: seq<String>, b: seq<String>)
    ensures NonEmpty(a + b) == NonEmpty(a) + NonEmpty(b)
    decreases |a|
  {
    if |a| == 0 {
      assert a + b == b;
    } else {
      assert (a + b)[1..] == a[1..] + b;
      NonEmptyAppend(a[1..], b);
    }
  }

  /** A single part is kept exactly when it is not empty. */
  lemma NonEmptySingle(p: String)
    ensures NonEmpty([p]) == if p == [] then [] else [p]
  {
    assert [p][1..] == [];
  }

  /** Splits `s` at every `c`, keeping empty pieces; the inverse of joining with `[c]`. */
  function Split(s: String, c: char): (r: seq<String>)
    ensures |r| > 0
    decreases |s|
  {
    if |s| == 0 then [[]]
    else
      var rest := Split(s[1..], c);
      if s[0] == c then [[]] + rest else [[s[0]] + rest[0]] + rest[1..]
  }

  lemma {:induction false} SplitPrefix(p: String, t: String, c: char)
    requires c !in p
    ensures Split(p + t, c) == [p + Split(t, c)[0]] + Split(t, c)[1..]
    decreases |p|
  {
    if |p| == 0 {
      var r := Split(t, c);
      assert p + t == t;
      assert p + r[0] == r[0];
      assert [r[0]] + r[1..] == r;
    } else {
      assert (p + t)[1..] == p[1..] + t;
      SplitPrefix(p[1..], t, c);
      assert [p[0]] + (p[1..] + Split(t, c)[0]) == p + Split(t, c)[0];
    }
  }

  /** Joining words with one separator character and splitting again at that character gives
      the words back, as long as no word contains the separator. */
  lemma {:induction false} SplitJoin(parts: seq<String>, c: char)
    requires |parts| > 0
    requires forall k :: 0 <= k < |parts| ==> c !in parts[k]
    ensures Split(Join(parts, [c]), c) == parts
    decreases |parts|
  {
    if |parts| == 1 {
      SplitPrefix(parts[0], [], c);
      assert parts[0] + [] == parts[0];
    } else {
      var tail := Join(parts[1..], [c]);
      SplitJoin(parts[1..], c);
      assert Join(parts, [c]) == parts[0] + ([c] + tail);
      SplitPrefix(parts[0], [c] + tail, c);
      assert ([c] + tail)[1..] == tail;
      assert Split([c] + tail, c) == [[]] + Split(tail, c);
      assert parts[0] + [] == parts[0];
      assert parts == [parts[0]] + parts[1..];
    }
  }

  /** `String#tr(from, to)` for one character: every `from` becomes `to`, nothing else changes. */
  function Tr(s: String, from: char, to: char): (r: String)
    ensures |r| == |s|
    ensures forall k :: 0 <= k < |s| ==> r[k] == if s[k] == from then to else s[k]
  {
    if |s| == 0 then [] else [if s[0] == from then to else s[0]] + Tr(s[1..], from, to)
  }

  /** `String#gsub(c, rep)` for a one-character pattern and a literal replacement. */
  function ReplaceChar(s: String, c: char, rep: String): (r: String)
    ensures c !in rep ==> c !in r
    ensures c !in s ==> r == s
    ensures forall x :: x in r ==> x in s || x in rep
    ensures forall x :: x in s && x != c ==> x in r
  {
    if |s| == 0 then []
    else
      var rest := ReplaceChar(s[1..], c, rep);
      assert forall x :: x in s ==> x == s[0] || x in s[1..];
      (if s[0] == c then rep else [s[0]]) + rest
  }

  /** Replacing in a concatenation replaces in each part. */
  lemma {:induction false} ReplaceCharAppend(a: String, b: String, c: char, rep: String)
    ensures ReplaceChar(a + b, c, rep) == ReplaceChar(a, c, rep) + ReplaceChar(b, c, rep)
    decreases |a|
  {
    if |a| == 0 {
      assert a + b == b;
    } else {
      assert (a + b)[1..] == a[1..] + b;
      ReplaceCharAppend(a[1..], b, c, rep);
    }
  }

  /** A single character is replaced exactly when it is the pattern character. With
      `ReplaceCharAppend` this fixes the value of `ReplaceChar` on every text. */
  lemma ReplaceCharSingle(x: char, c: char, rep: String)
    ensures ReplaceChar([x], c, rep) == if x == c then rep else [x]
  {
    assert [x][1..] == [];
  }

  /** The first index at or after `from` whose character is in `cs`. */
  function FirstIn(s: String, from: nat, cs: set<char>): (r: Option<nat>)
    requires from <= |s|
    ensures r.Some? ==> from <= r.value < |s| && s[r.value] in cs && NoneIn(s, from, r.value, cs)
    ensures r.None? ==> NoneIn(s, from, |s|, cs)
    decreases |s| - from
  {
    if from == |s| then None
    else if s[from] in cs then Some(from)
    else FirstIn(s, from + 1, cs)
  }
}

=== FILE: wrappers.dfy ===
/** Optional values and error-or-value results, used in place of Ruby's `nil` and exceptions. */
module Wrappers {

  /** `None` stands for Ruby's `nil`. */
  datatype Option<+T> = None | Some(value: T) {

    /** The wrapped value, or `default` when there is none. */
    function GetOr(default: T): T {
      if Some? then value else default
    }
  }

  /** A value, or the message of the error the source would raise. */
  datatype Result<+T, +E> = Ok(value: T) | Err(error: E)
}
